=== FILE: README.md ===
# gameBoard: a Dafny model of the tic-tac-toe engine

This project models the game state machine of the `gameBoard` module in
`js/script.js`. Its parts:

- **Board state.** The 3x3 board, the move counter capped at nine, the
  current-player indicator (1 or 2), the "who starts the next game" toggle and
  the two players' win counts.
- **Operations.** `initGame`, `move`, `getCurMove` and `resetGame`.
- **Private helpers.** `_resetBoard`, `_nextMove`, the terminal check
  `_hasGameEnded`, and the row, column and diagonal checks behind it.

The source keeps its state in variables closed over by the module. Here the
state is one immutable `Game` value, and every operation is a pure function
from one state to the next.

Modules:

- `Board` (board.dfy): cells, the nine-cell grid and `_resetBoard`. It also
  holds the line checks, the terminal check and the result codes -1/0/1. The
  checks are related to an independent reference: the list of the eight lines
  of the board.
- `GameBoard` (game.dfy): the engine state, `_nextMove`, `initGame`, `move`,
  `getCurMove` and `resetGame`.
- `GameFacts` (facts.dfy): properties of single moves.
- `Session` (session.dfy): sequences of moves and of games.
- `Scenarios` (scenarios.dfy): three concrete games, for any two distinct
  pieces.
- `AsWritten` (aswritten.dfy): the column and diagonal checks, the win test
  of `_hasGameEnded` and `resetGame` modelled as the code writes them, each
  with an input on which the code departs from its documented intent. Each of
  these isolates the lines it names and takes the others as mended. In
  particular, the example boards assume that a validity test exists (line 189)
  and that each accepted piece is written (line 197).

The model follows what the module's names and doc comments describe. Each
place where it departs from the code carries a comment citing the line:

- line 53: the diagonal check is called without the position. Both of its
  arguments are then `undefined`, `undefined === undefined` holds, and so only
  the main diagonal is ever checked: a win on the anti-diagonal goes unseen.
  Here the position is passed.
- line 56: `result - 1;` is a no-op, so a draw returns `undefined`. Here a
  draw is reported.
- line 75: `_assertRow` compares a cell with whole rows (`_board[1]`,
  `_board[2]`), so for a whole-number row it never matches. For any other
  row (see line 194) `_board[r]` is `undefined` and line 73 throws.
- line 92: `_assertCol` always starts from `_board[0][1]`.
- line 119: the centre requires both diagonals. This stays latent twice
  over: as written the centre never reaches the checks (line 194), and line 53
  passes no position, so the centre branch is never taken.
- line 170: `initGame` assigns to the constant `_board`. The TypeError fires
  after `_resetBoard()` has cleared the board but before lines 172-173. So
  `_firstMove` stays 1 and `_curMove` stays 0, and `getCurMove()` answers 0,
  against its documented 1 or 2 (lines 215-222). Here the starter is advanced
  and handed the turn.
- line 189: `_isValidMove` is not defined anywhere. Here a move is accepted
  when the position is 0..8, the game is not over and the cell is blank.
- line 194: `pos / 3` is not integer division. Only the moves in column 0
  (positions 0, 3 and 6) get a whole-number row. Every other move throws in
  `_assertRow` before the column or diagonal check runs
  (`AsWritten.WinTestAsWritten`). Here the row and column are `pos div 3` and
  `pos mod 3`.
- line 197: the current player's piece is computed but never written to the
  board. With lines 189 and 194 mended alone, the board then stays blank,
  `_assertCol(0)` compares three blank cells, and the first move on 0, 3 or 6
  is reported as a win (`AsWritten.BlankBoardAsWritten`). Here the piece is
  written.
- line 235: `_nextMove()` is called with no argument. `undefined === 1` is
  false, so it always yields 1, and `_firstMove` is never advanced. Here a
  reset advances the starter as `initGame` does.
- lines 73-75, 136-138 and 154-156: nothing stops three blank cells from
  counting as a line. Here every line check requires a non-blank cell.
  `Board.BlankGuardRedundant` shows the guard changes no verdict for the lines
  through a freshly placed piece.

Playing 0, 1, ..., 8 in order with the players alternating is won on the
seventh move. The first mover's fourth piece, on 6, completes the
anti-diagonal 2-4-6, and the moves to 7 and 8 are rejected
(`Scenarios.InOrderWinsAtSix`).

## Model

| member | source | states |
|---|---|---|
| Board.ResetBoard | js/script.js:19-25 | every one of the nine cells is blank and no cell counts as filled |
| Board.AssertDiag | js/script.js:117-125 | only a diagonal through (r, c) can match: r == c checks the main diagonal, r + c == 2 the anti-diagonal, the centre either one, any other cell none |
| Board.ChecksMatchLines | js/script.js:71-161 | the row, column and diagonal checks for (r, c) match exactly when one of the eight lines through cell 3r+c holds three equal non-blank marks (both directions) |
| Board.Code | js/script.js:47-50 | the result code is one of -1, 0, 1; it is 1 exactly for a win and -1 exactly for a draw |
| Board.HasGameEnded | js/script.js:52-60 | the result is a win iff a line through the placed cell is complete; a draw iff no such line and the counter is 9; otherwise the game goes on; the win check comes first |
| Board.BlankGuardRedundant | js/script.js:73-75 | when the placed cell is not blank, the blank-guarded checks agree with the unguarded comparisons of the source |
| GameBoard.NextMove | js/script.js:35-39 | the result is 1 or 2 and differs from the argument: 1 becomes 2 and anything else 1 |
| GameBoard.NextMoveInvolution | js/script.js:35-39 | on 1 and 2, applying `_nextMove` twice gives back the argument |
| GameBoard.GetCurMove | js/script.js:224-226 | reports whose turn it is, always 1 or 2 |
| GameBoard.InitGame | js/script.js:166-175 | binds the two players, clears the board and counter, flips the starter and gives the first turn to the new starter |
| GameBoard.ResetGame | js/script.js:232-237 | clears the board and counter, keeps both players and their win counts, flips the starter and gives it the first turn |
| GameBoard.Move | js/script.js:188-214 | a rejected move (bad position, game over, occupied cell) changes nothing; an accepted one changes exactly cell pos to the mover's piece and adds one to the counter; a win credits exactly the mover and keeps the turn, a continue passes the turn, a draw changes nothing else |
| GameFacts.MovePreservesValid | js/script.js:188-214 | every move keeps both indicators in {1, 2} and the counter equal to the number of filled cells |
| GameFacts.MovesAtMostNine | js/script.js:8-12 | in a well-formed state the counter never exceeds nine |
| GameFacts.LiveGameHasRoom | js/script.js:188-192 | a game that is not over always has a position where a move is accepted |
| GameFacts.WinIsMoversLine | js/script.js:197-206 | a winning move completes a line through the placed cell that holds the mover's piece three times |
| GameFacts.TerminalEndsGame | js/script.js:189-191 | after a win or a draw the game is over and every further move is rejected |
| GameFacts.ContinueKeepsGameLive | js/script.js:209-211 | after a move that lets the game go on, no line anywhere on the board is complete |
| GameFacts.DrawFillsBoard | js/script.js:55-56 | a draw leaves no blank cell |
| GameFacts.NinthMoveCanWin | js/script.js:53-56 | a ninth move that completes a line is a win, not a draw |
| Session.PlayConcat | js/script.js:188-214 | playing two move sequences one after the other is playing their concatenation |
| Session.PlayCounts | js/script.js:188-214 | over any move sequence the counter grows by the number of accepted moves and the total score by the number of wins; the starter, the pieces and well-formedness are kept |
| Session.StartersAlternate | js/script.js:232-237 | after n games the starter has flipped n times whatever the games' outcomes, and each new game opens with its starter to move |
| Session.StartersFromLoad | js/script.js:10 | from a freshly loaded module, counting the first game as game 0, game k is started by player 2 when k is even and by player 1 when k is odd |
| Scenarios.TopRowWins | js/script.js:188-214 | moves 0, 3, 1, 4, 2: four continues, then a win for the first mover, credited to that player only |
| Scenarios.NinthMoveDraws | js/script.js:52-60 | moves 0, 1, 2, 4, 3, 5, 7, 6, 8 complete no line: eight continues, then a draw, and nobody scores |
| Scenarios.InOrderWinsAtSix | js/script.js:117-125 | moves 0..8 in order: six continues, a win on 6 by the anti-diagonal, then two rejected moves |
| AsWritten.AssertColAsWritten | js/script.js:91-99 | the column check as written matches exactly when `_board[0][1]` equals column c's two lower cells, whatever c; for column 1 that is the intended check or three blank cells |
| AsWritten.ColumnFalseWin | js/script.js:92 | with lines 189 and 197 taken as mended: after O plays (2,0) on a board whose column 0 holds X, O, O, the written column check and the whole win test of `move(6)` report a win; the intended check finds no line and the game goes on |
| AsWritten.AssertDiagAsWritten | js/script.js:117-125 | `_assertDiag(r, c)` as written matches exactly when: both diagonals hold three equal cells, at the centre; the main diagonal does, for other r == c; the anti-diagonal does, for r + c == 2; never, off the diagonals |
| AsWritten.DiagCheckAsCalled | js/script.js:53 | called with no position, the diagonal check matches exactly when the main diagonal holds three equal cells, as `_assertDiag` does on two equal positions off the centre |
| AsWritten.AnyCheckAsWritten | js/script.js:53 | for a whole-number row, the win test as written matches exactly when column c's lower cells equal `_board[0][1]` or the main diagonal holds three equal cells; rows never count |
| AsWritten.WinTestAsWritten | js/script.js:194 | with line 194 as written and lines 189 and 197 taken as mended, the win test reached from `move(pos)` throws exactly when pos is not 0, 3 or 6; otherwise it matches exactly when column 0's lower cells equal `_board[0][1]` or the main diagonal holds three equal cells |
| AsWritten.BlankBoardAsWritten | js/script.js:197 | when the piece is never written, the board stays blank: the win test reports a win for every move on 0, 3 or 6 and throws for every other, though no line is complete |
| AsWritten.CentreMissesDiagonal | js/script.js:119 | a centre move that completes only the main diagonal is a win; `_assertDiag(1, 1)` misses it. As written, the move throws before any check, and the argument-less call of line 53 would find the diagonal |
| AsWritten.AntiDiagonalMissed | js/script.js:53 | with lines 189 and 197 taken as mended: a move on (2,0) that completes the anti-diagonal is a win, but the win test of `move(6)` as written reports none |
| AsWritten.ResetGameAsWritten | js/script.js:232-237 | the reset as written gives the turn to player 1 and leaves the starter unchanged |
| AsWritten.ResetRepeatsStarter | js/script.js:235 | two resets as written give the first turn to the same player; the corrected reset alternates it |

## Left out

- The closure and export pattern of the module (js/script.js:4, 239-242): the state is an explicit value passed in and returned.
- JavaScript `undefined` and falsy coercions in the `||` chain and missing returns (js/script.js:53, 56, 125, 213): replaced by the `Status` and `Reply` datatypes; a rejected move answers `Invalid`.
- The player objects (`getPiece`, `hasWon`) are defined outside this file: a player is its piece and its win count; names and name editing are not modelled.
- DOM rendering and click handling: none of it is in the modelled file.
- GameBoard.InitGame: takes the starter value `_firstMove` held before the call as a parameter, and it sets the move counter to 0 where the source leaves it unchanged (0 on a freshly loaded module).
- Floating-point positions: the corrected model takes positions as integers 0..8 and rejects anything else. As written, `pos / 3` is fractional outside column 0. `AsWritten.WinTestAsWritten` models the resulting TypeError as an outcome; what the uncaught exception leaves behind in `move` (the counter already incremented, line 192) is not modelled.
- The row check as written (line 75) has no member of its own. For a whole-number row, comparing a cell with a whole row never matches, so `AsWritten.AnyCheckAsWritten` counts no row. A fractional row throws, as in `AsWritten.WinTestAsWritten`.

## Findings

| source | as written | input that shows it | evidently intended | confidence | as-written member | corrected member |
|---|---|---|---|---|---|---|
| js/script.js:53 | `_hasGameEnded` calls `_assertDiag()` with no position, so `r === c` compares `undefined` with `undefined` and only the main diagonal is checked | with lines 189 and 197 mended, X on 2, 4 and 6, O on 0 and 1, X having just played 6: the anti-diagonal is complete, yet the win test reports nothing | pass the position, `_assertDiag(r, c)` | high; not executed | AsWritten.AntiDiagonalMissed | Board.HasGameEnded |
| js/script.js:92 | `_assertCol` takes its first cell from `_board[0][1]` whatever the column | with lines 189 and 197 mended, X on 0, 2 and 4, O on 1, 3 and 6, O having just played 6: column 0 holds X, O, O, yet `_assertCol(0)` compares `_board[0][1]`, an O, with the O's below and the win test credits O with a win | start from `_board[0][c]` | high; not executed | AsWritten.ColumnFalseWin | Board.ChecksMatchLines |
| js/script.js:119 | at the centre `_assertDiag` requires both diagonals (`&&`). It is latent twice over: line 194 never gives the centre the whole-number row 1, since 4 / 3 makes `_assertRow` throw, and line 53 passes no position | with lines 189 and 197 mended, X on 0, 4 and 8, O on 1 and 3, X having just played the centre: `_assertDiag(1, 1)` reports no win. As written the move throws before reaching it, and the argument-less call of line 53 would find this diagonal | either diagonal wins (`\|\|`) | medium; not executed | AsWritten.CentreMissesDiagonal | Board.AssertDiag |
| js/script.js:235 | `resetGame` sets the turn to `_nextMove()`, which is always 1, and leaves `_firstMove` alone | any two resets in a row: player 1 starts both games | flip the starter and give it the first turn, as `initGame` does | high; not executed | AsWritten.ResetRepeatsStarter | Session.StartersAlternate |

=== FILE: aswritten.dfy ===
/** Checks of js/script.js modelled as the code is written, each with an
    input on which it departs from what its name and comments promise.

    Each member isolates the lines it names and takes the rest of `move` as
    mended. As written, `move` throws a ReferenceError at line 189, since
    `_isValidMove` is defined nowhere, so no check is reached at all. With
    that mended, line 197 still never writes the piece, so the board stays
    blank and the first move on 0, 3 or 6 wins at once
    (`BlankBoardAsWritten`). The example boards below assume both lines
    mended: a validity test exists and each accepted piece is written.

    `move` computes the row as `pos / 3` (line 194), which is a whole number
    only for the moves in column 0 (positions 0, 3 and 6). For any other
    move `_board[r]` is `undefined` and `_assertRow` throws at line 73 before
    the column or diagonal check runs (`WinTestAsWritten`). `AnyCheckAsWritten`
    is the win test of line 53 for a whole-number row.

    The call at line 53 passes no position to `_assertDiag`, so both of its
    arguments are `undefined`, and `undefined === undefined` sends it down the
    `r === c` branch: as called, only the main diagonal is ever checked
    (`DiagCheckAsCalled`). The centre rule of line 119 is therefore latent
    twice over: the centre never reaches the checks while line 194 stands,
    and `_assertDiag` never takes the centre branch while line 53 passes no
    position. `AssertDiagAsWritten` models `_assertDiag(r, c)` on its own, as
    it would run once both lines are mended.

    The rest of the model uses the corrected definitions in Board and
    GameBoard. Like the source, these compare cells without a blank guard. */
module AsWritten {
  import opened Board
  import opened GameBoard

  /** JavaScript's `undefined` where the source compares it with a number:
      any value other than 1 and 2 behaves the same, since `undefined === 1`
      and `undefined === 2` are both false. */
  const Undefined: int := 0

  /** `_assertCol` as written (js/script.js:91-99): the first cell is always
      `_board[0][1]` (line 92), whatever the column. */
  function AssertColAsWritten(b: Grid, c: int): (m: bool)
    requires 0 <= c < 3
    ensures m <==> At(b, 0, 1) == At(b, 1, c) == At(b, 2, c)
    ensures c == 1 ==> (m <==> AssertCol(b, 1) || At(b, 0, 1) == At(b, 1, 1) == At(b, 2, 1) == Empty)
  {
    var p := At(b, 0, 1);
    p == At(b, 1, c) && p == At(b, 2, c)
  }

  /** `_assertDiag(r, c)` as written (js/script.js:117-125), with the
      unguarded diagonal checks of lines 135-161: the centre demands both
      diagonals (line 119). */
  function AssertDiagAsWritten(b: Grid, r: int, c: int): (m: bool)
    requires 0 <= r < 3 && 0 <= c < 3
    ensures m <==>
      if r == 1 && c == 1 then
        At(b, 0, 0) == At(b, 1, 1) == At(b, 2, 2) && At(b, 2, 0) == At(b, 1, 1) == At(b, 0, 2)
      else if r == c then At(b, 0, 0) == At(b, 1, 1) == At(b, 2, 2)
      else if r + c == 2 then At(b, 2, 0) == At(b, 1, 1) == At(b, 0, 2)
      else false
    ensures r != c && r + c != 2 ==> !m
  {
    var left := At(b, 0, 0) == At(b, 1, 1) && At(b, 0, 0) == At(b, 2, 2);
    var right := At(b, 2, 0) == At(b, 1, 1) && At(b, 2, 0) == At(b, 0, 2);
    if r == 1 && c == 1 then left && right
    else if r == c then left
    else if (r == 2 && c == 0) || (r == 0 && c == 2) then right
    else false
  }

  /** `_assertDiag()` as line 53 calls it: with both arguments `undefined`,
      `r === 1` fails and `r === c` holds, so the unguarded main-diagonal check
      runs whatever the position; it is what `_assertDiag(r, c)` does on two
      equal positions off the centre. */
  function DiagCheckAsCalled(b: Grid): (m: bool)
    ensures m <==> At(b, 0, 0) == At(b, 1, 1) == At(b, 2, 2)
    ensures m == AssertDiagAsWritten(b, 0, 0) == AssertDiagAsWritten(b, 2, 2)
  {
    var r, c := Undefined, Undefined;
    var left := At(b, 0, 0) == At(b, 1, 1) && At(b, 0, 0) == At(b, 2, 2);
    var right := At(b, 2, 0) == At(b, 1, 1) && At(b, 2, 0) == At(b, 0, 2);
    if r == 1 && c == 1 then left && right
    else if r == c then left
    else right
  }

  /** The win test of `_hasGameEnded` as written (js/script.js:53), for a
      whole-number row r: `_assertRow(r)` compares the cell `_board[r][0]`
      with whole rows and never matches (line 75), the column check starts
      from `_board[0][1]` and the diagonal check ignores the position; so r
      plays no part once it is a whole number. */
  function AnyCheckAsWritten(b: Grid, c: int): (m: bool)
    requires 0 <= c < 3
    ensures m <==>
      (At(b, 0, 1) == At(b, 1, c) == At(b, 2, c)) || (At(b, 0, 0) == At(b, 1, 1) == At(b, 2, 2))
  {
    var rowMatches := false;
    rowMatches || AssertColAsWritten(b, c) || DiagCheckAsCalled(b)
  }

  /** What the win test of line 53 does with a move on `pos` as written:
      line 194 passes `pos / 3` as the row. */
  datatype Outcome = Threw | Returned(win: bool)

  /** The win test reached from `move(pos)` (js/script.js:194, 53, 71-73)
      with line 194 as written, taking lines 189 and 197 as mended: unless `pos / 3` is a whole number, `_board[pos / 3]` is
      `undefined` and reading `row[0]` throws a TypeError; otherwise the
      position is in column 0 and the test is `AnyCheckAsWritten(b, 0)`. */
  function WinTestAsWritten(b: Grid, pos: int): (o: Outcome)
    requires 0 <= pos < 9
    ensures o.Threw? <==> pos != 0 && pos != 3 && pos != 6
    ensures o.Returned? ==>
      (o.win <==> (At(b, 0, 1) == At(b, 1, 0) == At(b, 2, 0)) || (At(b, 0, 0) == At(b, 1, 1) == At(b, 2, 2)))
  {
    if pos % 3 != 0 then Threw
    else Returned(AnyCheckAsWritten(b, pos % 3))
  }

  /** Lines 189 and 194 mended alone, line 197 as written: the board stays
      blank, so `_assertCol(0)` compares three blank cells, and every first
      move in column 0 is reported as a win; every other move throws. */
  lemma BlankBoardAsWritten(pos: int)
    requires 0 <= pos < 9
    ensures WinTestAsWritten(ResetBoard(), pos) == (if pos % 3 == 0 then Returned(true) else Threw)
    ensures !LineThrough(ResetBoard(), pos)
  {
  }

  /** `resetGame` as written (js/script.js:232-237): `_nextMove()` gets no
      argument, so it compares `undefined` with 1 and yields 1 (line 235);
      `_firstMove` is left as it was. */
  function ResetGameAsWritten(g: Game): (h: Game)
    ensures IsClear(h.board) && h.moves == 0
    ensures h.cur == 1 && h.first == g.first
    ensures h.p1 == g.p1 && h.p2 == g.p2
  {
    Game(ResetBoard(), 0, NextMove(Undefined), g.first, g.p1, g.p2)
  }

  const x := Mark('X')
  const o := Mark('O')

  /** X on (0,0), (0,2) and (1,1), O on (0,1), (1,0) and (2,0), O having
      just played (2,0): column 0 is X, O, O. */
  const ColumnBoard: Grid := [x, o, x, o, x, Empty, o, Empty, Empty]

  /** X on the main diagonal, O on (0,1) and (1,0), X having just played
      the centre. */
  const DiagonalBoard: Grid := [x, o, Empty, o, x, Empty, Empty, Empty, x]

  /** X on the anti-diagonal, O on (0,0) and (0,1), X having just played
      (2,0). */
  const AntiDiagonalBoard: Grid := [o, o, x, Empty, x, Empty, x, Empty, Empty]

  /** After O plays (2,0) the written column check compares `_board[0][1]`,
      an O, with the O's below (2,0) and reports a win for column 0, which
      holds X, O, O; the move is in column 0, so the whole win test as written
      reports it. The intended check finds no line and the game goes on. */
  lemma ColumnFalseWin()
    ensures AssertColAsWritten(ColumnBoard, 0) && AnyCheckAsWritten(ColumnBoard, 0)
    ensures WinTestAsWritten(ColumnBoard, 6) == Returned(true)
    ensures !AssertCol(ColumnBoard, 0)
    ensures !LineThrough(ColumnBoard, Index(2, 0))
    ensures HasGameEnded(ColumnBoard, 6, 2, 0) == Continue
  {
    ChecksMatchLines(ColumnBoard, 2, 0);
  }

  /** After X completes the main diagonal by playing the centre,
      `_assertDiag(1, 1)` reports no win; the intended check does. As written
      the move never gets that far: the row 4 / 3 makes `_assertRow` throw.
      Were the row mended alone, the argument-less call of line 53 would find
      the main diagonal, so the defect shows only once both lines pass a
      whole-number position. */
  lemma CentreMissesDiagonal()
    ensures !AssertDiagAsWritten(DiagonalBoard, 1, 1)
    ensures WinTestAsWritten(DiagonalBoard, 4) == Threw
    ensures DiagCheckAsCalled(DiagonalBoard) && AnyCheckAsWritten(DiagonalBoard, 1)
    ensures AssertDiag(DiagonalBoard, 1, 1)
    ensures LineThrough(DiagonalBoard, Index(1, 1))
  {
    ChecksMatchLines(DiagonalBoard, 1, 1);
  }

  /** After X completes the anti-diagonal by playing (2,0), the win test of
      line 53 reports nothing, because the diagonal check is called without
      the position; the intended terminal check reports the win. */
  lemma AntiDiagonalMissed()
    ensures !AnyCheckAsWritten(AntiDiagonalBoard, 0)
    ensures WinTestAsWritten(AntiDiagonalBoard, 6) == Returned(false)
    ensures AssertDiag(AntiDiagonalBoard, 2, 0)
    ensures HasGameEnded(AntiDiagonalBoard, 5, 2, 0) == Win
  {
    ChecksMatchLines(AntiDiagonalBoard, 2, 0);
  }

  /** As written, every reset gives the first turn to player 1, so starters
      do not alternate; the corrected `ResetGame` flips the starter each
      time (Session.StartersAlternate). */
  lemma ResetRepeatsStarter(g: Game)
    ensures ResetGameAsWritten(ResetGameAsWritten(g)).cur == ResetGameAsWritten(g).cur
    ensures Valid(g) ==> ResetGame(ResetGame(g)).cur != ResetGame(g).cur
  {
  }
}

=== FILE: board.dfy ===
/** The 3x3 grid of the gameBoard module and its terminal-condition check.

    The source keeps the grid as three rows of three strings, ' ' for a blank
    cell and a player's piece otherwise (js/script.js:5-7). Here the grid is a
    single row-major sequence of nine cells: cell (r, c) lives at 3 * r + c.
 */
module Board {

  /** A blank cell (the source's ' ') or a cell holding a player's piece. */
  datatype Cell = Empty | Mark(piece: char)

  /** The most moves a game can have (js/script.js:8). */
  const MaxMoves: nat := 9

  /** A position 0..8 on the board, in row-major order. */
  type Pos = i: int | 0 <= i < 9

  /** A board always has nine cells. */
  type Grid = b: seq<Cell> | |b| == 9
    witness [Empty, Empty, Empty, Empty, Empty, Empty, Empty, Empty, Empty]

  /** The board position of row r, column c, that is 3 * r + c (written
      as a sum, which keeps the solver's arithmetic linear). */
  function Index(r: int, c: int): int
  {
    r + r + r + c
  }

  /** The cell at row r, column c. */
  function At(b: Grid, r: int, c: int): Cell
    requires 0 <= r < 3 && 0 <= c < 3
  {
    b[Index(r, c)]
  }

  predicate IsClear(b: Grid)
  {
    forall i :: 0 <= i < |b| ==> b[i] == Empty
  }

  /** `_resetBoard` (js/script.js:19-25): every cell blank. */
  function ResetBoard(): (b: Grid)
    ensures IsClear(b)
    ensures Filled(b) == 0
  {
    var b: Grid := [Empty, Empty, Empty, Empty, Empty, Empty, Empty, Empty, Empty];
    ClearIsUnfilled(b);
    b
  }

  /** Number of non-blank cells of a row of cells. */
  function Filled(s: seq<Cell>): nat
  {
    if s == [] then 0
    else (if s[0] == Empty then 0 else 1) + Filled(s[1..])
  }

  lemma {:induction false} FilledBound(s: seq<Cell>)
    ensures Filled(s) <= |s|
    ensures Filled(s) == |s| <==> forall i :: 0 <= i < |s| ==> s[i] != Empty
  {
    if s != [] {
      FilledBound(s[1..]);
      assert forall i :: 1 <= i < |s| ==> s[i] == s[1..][i - 1];
    }
  }

  lemma {:induction false} ClearIsUnfilled(s: seq<Cell>)
    requires forall i :: 0 <= i < |s| ==> s[i] == Empty
    ensures Filled(s) == 0
  {
    if s != [] {
      ClearIsUnfilled(s[1..]);
    }
  }

  /** Filling one blank cell adds exactly one to the count of filled cells. */
  lemma {:induction false} FilledUpdate(s: seq<Cell>, i: int, x: Cell)
    requires 0 <= i < |s| && s[i] == Empty && x != Empty
    ensures Filled(s[i := x]) == Filled(s) + 1
  {
    if i > 0 {
      FilledUpdate(s[1..], i - 1, x);
      assert s[i := x][1..] == s[1..][i - 1 := x];
    } else {
      assert s[i := x][1..] == s[1..];
    }
  }

  /** Three cells that hold the same piece. The blank check is the guard the
      source leaves out (js/script.js:73-75, 136-138, 154-156): three blank
      cells are not a match. */
  predicate Same(x: Cell, y: Cell, z: Cell)
  {
    x != Empty && x == y && y == z
  }

  /** `_assertRow` (js/script.js:71-80). The source compares the first cell
      with `_board[1]` and `_board[2]`, which are whole rows (line 75); the
      intended comparison is with the row's own cells. */
  predicate AssertRow(b: Grid, r: int)
    requires 0 <= r < 3
  {
    Same(At(b, r, 0), At(b, r, 1), At(b, r, 2))
  }

  /** `_assertCol` (js/script.js:91-99). The source takes the first cell from
      `_board[0][1]` whatever the column (line 92); the intended one is
      `_board[0][c]`. */
  predicate AssertCol(b: Grid, c: int)
    requires 0 <= c < 3
  {
    Same(At(b, 0, c), At(b, 1, c), At(b, 2, c))
  }

  /** `_assertLeftDiag` (js/script.js:135-143): (0,0)-(1,1)-(2,2). */
  predicate AssertLeftDiag(b: Grid)
  {
    Same(At(b, 0, 0), At(b, 1, 1), At(b, 2, 2))
  }

  /** `_assertRightDiag` (js/script.js:153-161): (2,0)-(1,1)-(0,2). */
  predicate AssertRightDiag(b: Grid)
  {
    Same(At(b, 2, 0), At(b, 1, 1), At(b, 0, 2))
  }

  /** `_assertDiag` (js/script.js:117-125): only the diagonals through (r, c)
      are checked. At the centre the source requires both diagonals (`&&`,
      line 119) where either one completes a line; an off-diagonal cell falls
      off the end and yields `undefined` (line 125), here no match. */
  function AssertDiag(b: Grid, r: int, c: int): (m: bool)
    requires 0 <= r < 3 && 0 <= c < 3
    ensures m <==> (r == c && AssertLeftDiag(b)) || (r + c == 2 && AssertRightDiag(b))
    ensures r != c && r + c != 2 ==> !m
  {
    if r == 1 && c == 1 then AssertLeftDiag(b) || AssertRightDiag(b)
    else if r == c then AssertLeftDiag(b)
    else if (r == 2 && c == 0) || (r == 0 && c == 2) then AssertRightDiag(b)
    else false
  }

  /** `_assertRow(r) || _assertCol(c) || _assertDiag(r, c)`: one of the
      checks run after a piece is placed at (r, c) finds a line
      (js/script.js:53). */
  predicate AnyCheck(b: Grid, r: int, c: int)
    requires 0 <= r < 3 && 0 <= c < 3
  {
    AssertRow(b, r) || AssertCol(b, c) || AssertDiag(b, r, c)
  }

  /** A straight line of three positions. */
  datatype Line = Line(x: Pos, y: Pos, z: Pos)

  /** Number of lines on the board. */
  const NumLines := 8

  /** The eight lines of the board: rows 0-2, columns 3-5, the main diagonal
      (6) and the anti-diagonal (7). This is the reference the source's checks
      are measured against. */
  function LineAt(k: int): Line
    requires 0 <= k < NumLines
  {
    if k == 0 then Line(0, 1, 2)
    else if k == 1 then Line(3, 4, 5)
    else if k == 2 then Line(6, 7, 8)
    else if k == 3 then Line(0, 3, 6)
    else if k == 4 then Line(1, 4, 7)
    else if k == 5 then Line(2, 5, 8)
    else if k == 6 then Line(0, 4, 8)
    else Line(2, 4, 6)
  }

  predicate OnLine(l: Line, pos: int)
  {
    pos == l.x || pos == l.y || pos == l.z
  }

  /** All three cells of the line hold the same piece. */
  predicate Complete(b: Grid, l: Line)
  {
    Same(b[l.x], b[l.y], b[l.z])
  }

  /** All three cells of the line hold x. */
  predicate Holds(b: Grid, l: Line, x: Cell)
  {
    b[l.x] == x && b[l.y] == x && b[l.z] == x
  }

  /** Some line through pos is complete. */
  predicate LineThrough(b: Grid, pos: int)
  {
    exists k :: 0 <= k < NumLines && OnLine(LineAt(k), pos) && Complete(b, LineAt(k))
  }

  /** Some line anywhere on the board is complete. */
  predicate HasWinningLine(b: Grid)
  {
    exists k :: 0 <= k < NumLines && Complete(b, LineAt(k))
  }

  /** The row, column and position-dependent diagonal checks together find a
      complete line exactly when one passes through the cell (r, c). */
  lemma ChecksMatchLines(b: Grid, r: int, c: int)
    requires 0 <= r < 3 && 0 <= c < 3
    ensures AnyCheck(b, r, c) <==> LineThrough(b, Index(r, c))
  {
    if LineThrough(b, Index(r, c)) {
      LineThroughIsChecked(b, r, c);
    }
    if AnyCheck(b, r, c) {
      CheckedIsLineThrough(b, r, c);
    }
  }

  /** A line found by one of the checks passes through (r, c). */
  lemma CheckedIsLineThrough(b: Grid, r: int, c: int)
    requires 0 <= r < 3 && 0 <= c < 3
    requires AssertRow(b, r) || AssertCol(b, c) || AssertDiag(b, r, c)
    ensures LineThrough(b, Index(r, c))
  {
    if AssertRow(b, r) {
      RowIsLineThrough(b, r, c);
    } else if AssertCol(b, c) {
      ColIsLineThrough(b, r, c);
    } else {
      DiagIsLineThrough(b, r, c);
    }
  }

  lemma RowIsLineThrough(b: Grid, r: int, c: int)
    requires 0 <= r < 3 && 0 <= c < 3
    requires AssertRow(b, r)
    ensures LineThrough(b, Index(r, c))
  {
    Witness(b, Index(r, c), r);
  }

  lemma ColIsLineThrough(b: Grid, r: int, c: int)
    requires 0 <= r < 3 && 0 <= c < 3
    requires AssertCol(b, c)
    ensures LineThrough(b, Index(r, c))
  {
    Witness(b, Index(r, c), 3 + c);
  }

  lemma DiagIsLineThrough(b: Grid, r: int, c: int)
    requires 0 <= r < 3 && 0 <= c < 3
    requires AssertDiag(b, r, c)
    ensures LineThrough(b, Index(r, c))
  {
    if r == c && AssertLeftDiag(b) {
      Witness(b, Index(r, c), 6);
    } else {
      Witness(b, Index(r, c), 7);
    }
  }

  lemma Witness(b: Grid, pos: int, k: int)
    requires 0 <= k < NumLines && OnLine(LineAt(k), pos) && Complete(b, LineAt(k))
    ensures LineThrough(b, pos)
  {
  }

  /** A complete line through (r, c) is found by one of the checks. */
  lemma LineThroughIsChecked(b: Grid, r: int, c: int)
    requires 0 <= r < 3 && 0 <= c < 3
    requires LineThrough(b, Index(r, c))
    ensures AssertRow(b, r) || AssertCol(b, c) || AssertDiag(b, r, c)
  {
    var k :| 0 <= k < NumLines && OnLine(LineAt(k), Index(r, c)) && Complete(b, LineAt(k));
    if k < 3 {
      assert k == r;
    } else if k < 6 {
      assert k - 3 == c;
    } else if k == 6 {
      assert r == c;
    } else {
      assert r + c == 2;
    }
  }

  /** The outcome of a move: the source's -1, 0 and 1. */
  datatype Status = Draw | Continue | Win

  /** The numeric result code of the source (js/script.js:47-50, 183-186). */
  function Code(s: Status): (n: int)
    ensures -1 <= n <= 1
    ensures n == 1 <==> s.Win?
    ensures n == -1 <==> s.Draw?
  {
    match s
    case Draw => -1
    case Continue => 0
    case Win => 1
  }

  /** `_hasGameEnded` (js/script.js:52-60), after a piece was placed at row r,
      column c with `moves` moves made. The source passes no position to
      `_assertDiag` (line 53) and computes but discards the draw code
      (`result - 1;`, line 56); here the diagonal check gets (r, c) and a draw
      is reported. The win check comes first, so the ninth move can win. */
  function HasGameEnded(b: Grid, moves: int, r: int, c: int): (s: Status)
    requires 0 <= r < 3 && 0 <= c < 3
    ensures s.Win? <==> LineThrough(b, Index(r, c))
    ensures s.Draw? <==> !LineThrough(b, Index(r, c)) && moves == MaxMoves
    ensures s.Continue? <==> !LineThrough(b, Index(r, c)) && moves != MaxMoves
  {
    ChecksMatchLines(b, r, c);
    if AnyCheck(b, r, c) then Win
    else if moves == MaxMoves then Draw
    else Continue
  }

  /** The blank guard of `Same` never decides a check: every line the checks
      look at passes through the cell just placed, which is not blank. So the
      unguarded comparisons of the source give the same verdict. */
  lemma BlankGuardRedundant(b: Grid, r: int, c: int)
    requires 0 <= r < 3 && 0 <= c < 3 && At(b, r, c) != Empty
    ensures AssertRow(b, r) <==> At(b, r, 0) == At(b, r, 1) == At(b, r, 2)
    ensures AssertCol(b, c) <==> At(b, 0, c) == At(b, 1, c) == At(b, 2, c)
    ensures r == c ==> (AssertLeftDiag(b) <==> At(b, 0, 0) == At(b, 1, 1) == At(b, 2, 2))
    ensures r + c == 2 ==> (AssertRightDiag(b) <==> At(b, 2, 0) == At(b, 1, 1) == At(b, 0, 2))
  {
  }
}

=== FILE: facts.dfy ===
/** Properties of single moves of the gameBoard state machine. */
module GameFacts {
  import opened Board
  import opened GameBoard

  /** Every move keeps the state well formed: the indicators stay 1 or 2 and
      the counter keeps counting the pieces on the board. */
  lemma MovePreservesValid(g: Game, pos: int)
    requires Valid(g)
    ensures Valid(Move(g, pos).game)
  {
    var st := Move(g, pos);
    if st.reply.Accepted? {
      var piece := Mark(PieceOf(g, g.cur));
      assert st.game.board == g.board[pos := piece];
      FilledUpdate(g.board, pos, piece);
    }
  }

  /** In a well-formed state the counter never passes nine. */
  lemma MovesAtMostNine(g: Game)
    requires Valid(g)
    ensures g.moves <= MaxMoves
  {
    FilledBound(g.board);
  }

  /** A game that is not over always has a blank cell to play. */
  lemma LiveGameHasRoom(g: Game)
    requires Valid(g) && !Ended(g)
    ensures exists pos :: 0 <= pos < 9 && Accepts(g, pos)
  {
    FilledBound(g.board);
    var pos :| 0 <= pos < 9 && g.board[pos] == Empty;
    assert Accepts(g, pos);
  }

  /** A win is the mover's own line: some line through the placed cell holds
      the current player's piece three times. */
  lemma WinIsMoversLine(g: Game, pos: int)
    requires Move(g, pos).reply == Accepted(Win)
    ensures exists k ::
              && 0 <= k < NumLines
              && OnLine(LineAt(k), pos)
              && Holds(Move(g, pos).game.board, LineAt(k), Mark(PieceOf(g, g.cur)))
  {
    var b := Move(g, pos).game.board;
    var k :| 0 <= k < NumLines && OnLine(LineAt(k), pos) && Complete(b, LineAt(k));
    assert b[pos] == Mark(PieceOf(g, g.cur));
  }

  /** A win or a draw ends the game: every later move is rejected. */
  lemma TerminalEndsGame(g: Game, pos: int, next: int)
    requires Valid(g)
    requires Move(g, pos).reply == Accepted(Win) || Move(g, pos).reply == Accepted(Draw)
    ensures Ended(Move(g, pos).game)
    ensures Move(Move(g, pos).game, next).reply == Invalid
  {
    var h := Move(g, pos).game;
    if Move(g, pos).reply == Accepted(Win) {
      var k :| 0 <= k < NumLines && OnLine(LineAt(k), pos) && Complete(h.board, LineAt(k));
      assert HasWinningLine(h.board);
    }
  }

  /** A move that lets the game go on leaves no complete line anywhere: the
      cells off the placed cell's lines are unchanged, so checking only the
      lines through the placed cell is enough. */
  lemma ContinueKeepsGameLive(g: Game, pos: int)
    requires Valid(g)
    requires Move(g, pos).reply == Accepted(Continue)
    ensures !Ended(Move(g, pos).game)
  {
    var h := Move(g, pos).game;
    MovesAtMostNine(g);
    forall k | 0 <= k < NumLines
      ensures !Complete(h.board, LineAt(k))
    {
      if !OnLine(LineAt(k), pos) {
        assert !Complete(g.board, LineAt(k));
      }
    }
  }

  /** A draw fills the board. */
  lemma DrawFillsBoard(g: Game, pos: int)
    requires Valid(g)
    requires Move(g, pos).reply == Accepted(Draw)
    ensures forall i :: 0 <= i < 9 ==> Move(g, pos).game.board[i] != Empty
  {
    var h := Move(g, pos).game;
    MovePreservesValid(g, pos);
    FilledBound(h.board);
  }

  /** The ninth move can win: the win check comes before the draw check. */
  lemma NinthMoveCanWin(g: Game, pos: int)
    requires g.moves + 1 == MaxMoves && Accepts(g, pos)
    requires LineThrough(Move(g, pos).game.board, pos)
    ensures Move(g, pos).reply == Accepted(Win)
  {
  }
}

=== FILE: game.dfy ===
/** The game state machine of the gameBoard module (js/script.js:4-243):
    the board, the move counter, whose turn it is, who starts the next game
    and the two players' scores, with the public operations `initGame`,
    `move`, `getCurMove` and `resetGame`.

    The source keeps this state in variables closed over by the module
    (js/script.js:5-14); here it is one immutable value and every operation
    returns the next value.
 */
module GameBoard {
  import opened Board

  /** A player as the engine sees it: its piece and how many games it has
      won. The player objects themselves (`getPiece`, `hasWon`) are defined
      outside the gameBoard module. */
  datatype Player = Player(piece: char, wins: nat)

  /** The player's `hasWon`: one more game won, same piece. */
  function HasWon(p: Player): (q: Player)
    ensures q.piece == p.piece && q.wins == p.wins + 1
  {
    p.(wins := p.wins + 1)
  }

  /** The value `_firstMove` holds when the module is loaded (js/script.js:10). */
  const InitialStarter: int := 1

  /** The engine state: `_board`, `_moves`, `_curMove`, `_firstMove`,
      `_player1`, `_player2` (js/script.js:5-14). `cur` is the player whose
      turn it is and `first` the player who started the current game. */
  datatype Game = Game(board: Grid, moves: nat, cur: int, first: int, p1: Player, p2: Player)

  /** The state every reachable game keeps: both indicators name a player
      and the move counter is the number of pieces on the board. */
  predicate Valid(g: Game)
  {
    && (g.cur == 1 || g.cur == 2)
    && (g.first == 1 || g.first == 2)
    && g.moves == Filled(g.board)
  }

  /** `_nextMove` (js/script.js:35-39): 1 becomes 2, anything else 1. */
  function NextMove(m: int): (n: int)
    ensures n == 1 || n == 2
    ensures n != m
    ensures m != 1 ==> n == 1
  {
    if m == 1 then 2 else 1
  }

  /** On the two player numbers `_nextMove` is its own inverse. */
  lemma NextMoveInvolution(m: int)
    requires m == 1 || m == 2
    ensures NextMove(NextMove(m)) == m
  {
  }

  /** `getCurMove` (js/script.js:224-226): whose turn it is. */
  function GetCurMove(g: Game): (who: int)
    requires Valid(g)
    ensures who == 1 || who == 2
    ensures who == g.cur
  {
    g.cur
  }

  /** The piece of player `who` (js/script.js:197). */
  function PieceOf(g: Game, who: int): char
  {
    if who == 1 then g.p1.piece else g.p2.piece
  }

  /** The win count of player `who`. */
  function WinsOf(g: Game, who: int): nat
  {
    if who == 1 then g.p1.wins else g.p2.wins
  }

  /** The game is over: all moves are made or a line is complete. The source
      keeps no such flag; its `_isValidMove` (called at js/script.js:189) is
      not defined anywhere, and this is the "game already ended" half of it. */
  predicate Ended(g: Game)
  {
    g.moves >= MaxMoves || HasWinningLine(g.board)
  }

  /** A move to `pos` is accepted: a position 0..8, a game not yet over and a
      blank target cell. */
  predicate Accepts(g: Game, pos: int)
  {
    0 <= pos < 9 && !Ended(g) && g.board[pos] == Empty
  }

  /** What `move` reports: a rejected move, or the status after the move. The
      source returns `undefined` for a rejected move (js/script.js:213). */
  datatype Reply = Invalid | Accepted(status: Status)

  datatype Step = Step(game: Game, reply: Reply)

  /** `initGame` (js/script.js:166-175): bind the players, clear the board,
      advance the starter and hand the first turn to the new starter.
      `starter` is the value `_firstMove` holds before the call. The source
      assigns the result of `_resetBoard()` to the constant `_board`
      (line 170), which throws after the board is cleared and before lines
      172-173, leaving `_firstMove` at 1 and `_curMove` at 0; here the board
      is cleared and the starter is advanced and handed the turn. It also leaves `_moves` alone, which is 0 on a freshly
      loaded module (line 12); here the counter is set to 0. */
  function InitGame(starter: int, p1: Player, p2: Player): (g: Game)
    ensures Valid(g)
    ensures IsClear(g.board) && g.moves == 0
    ensures g.first != starter && g.cur == g.first
    ensures g.p1 == p1 && g.p2 == p2
  {
    var first := NextMove(starter);
    Game(ResetBoard(), 0, first, first, p1, p2)
  }

  /** `resetGame` (js/script.js:232-237): clear the board and the move
      counter for a new game with the same players and scores. The source
      sets the turn to `_nextMove()` with no argument (line 235), which
      compares `undefined` with 1 and so always yields 1, and it never
      advances `_firstMove`; here a new game starts as in `initGame`: the
      starter advances and takes the first turn. */
  function ResetGame(g: Game): (h: Game)
    ensures IsClear(h.board) && h.moves == 0
    ensures h.first != g.first && h.cur == h.first
    ensures h.p1 == g.p1 && h.p2 == g.p2
    ensures Valid(h)
  {
    var first := NextMove(g.first);
    Game(ResetBoard(), 0, first, first, g.p1, g.p2)
  }

  /** `move` (js/script.js:188-214). A rejected move changes nothing. An
      accepted one puts the current player's piece on the cell at
      (pos div 3, pos mod 3), counts the move and runs the terminal check;
      a win credits the mover and keeps the turn, a game that goes on passes
      the turn, a draw changes nothing more. The source divides with `/`,
      which is not integer division in JavaScript (line 194), and never
      writes the piece it computes (line 197); here the piece is written at
      the integer row and column. */
  function Move(g: Game, pos: int): (st: Step)
    ensures st.reply.Invalid? <==> !Accepts(g, pos)
    ensures st.reply.Invalid? ==> st.game == g
    ensures st.reply.Accepted? ==>
      && st.game.moves == g.moves + 1
      && st.game.board[pos] == Mark(PieceOf(g, g.cur))
      && (forall i :: 0 <= i < 9 && i != pos ==> st.game.board[i] == g.board[i])
      && st.game.first == g.first
      && st.game.p1.piece == g.p1.piece && st.game.p2.piece == g.p2.piece
    ensures st.reply == Accepted(Win) <==> Accepts(g, pos) && LineThrough(st.game.board, pos)
    ensures st.reply == Accepted(Draw) <==>
      Accepts(g, pos) && !LineThrough(st.game.board, pos) && g.moves + 1 == MaxMoves
    ensures st.reply == Accepted(Win) ==>
      && st.game.cur == g.cur
      && WinsOf(st.game, g.cur) == WinsOf(g, g.cur) + 1
      && WinsOf(st.game, NextMove(g.cur)) == WinsOf(g, NextMove(g.cur))
    ensures st.reply == Accepted(Continue) ==>
      && st.game.cur == NextMove(g.cur)
      && st.game.p1 == g.p1 && st.game.p2 == g.p2
    ensures st.reply == Accepted(Draw) ==>
      && st.game.cur == g.cur
      && st.game.p1 == g.p1 && st.game.p2 == g.p2
  {
    if !Accepts(g, pos) then Step(g, Invalid)
    else
      var r, c := pos / 3, pos % 3;
      assert Index(r, c) == pos;
      var board := g.board[pos := Mark(PieceOf(g, g.cur))];
      var moves := g.moves + 1;
      var result := HasGameEnded(board, moves, r, c);
      var placed := g.(board := board, moves := moves);
      match result
      case Win =>
        if g.cur == 1 then Step(placed.(p1 := HasWon(g.p1)), Accepted(Win))
        else Step(placed.(p2 := HasWon(g.p2)), Accepted(Win))
      case Continue => Step(placed.(cur := NextMove(g.cur)), Accepted(Continue))
      case Draw => Step(placed, Accepted(Draw))
  }
}

=== FILE: scenarios.dfy ===
/** Whole games played out on concrete positions. */
module Scenarios {
  import opened Board
  import opened GameBoard
  import opened Session

  /** A fresh game where player 1 plays `o` and player 2 plays `x`, neither
      with a win yet. `initGame` on a freshly loaded module hands the first
      turn to player 2, so `x` moves first. */
  function Opening(x: char, o: char): Game
  {
    InitGame(InitialStarter, Player(o, 0), Player(x, 0))
  }

  /** A later state of the game opened by `Opening(x, o)`: the given board,
      counter and turn, and no win yet. */
  function Midgame(x: char, o: char, b: Grid, moves: nat, cur: int): Game
  {
    Game(b, moves, cur, 2, Player(o, 0), Player(x, 0))
  }

  /** The state after the current player puts a piece on `pos` and the turn
      passes. */
  function Placed(g: Game, pos: int): Game
    requires 0 <= pos < 9
  {
    g.(board := g.board[pos := Mark(PieceOf(g, g.cur))], moves := g.moves + 1, cur := NextMove(g.cur))
  }

  /** Row and column are recovered from the position by division. */
  lemma IndexSplits(r: int, c: int)
    requires 0 <= r < 3 && 0 <= c < 3
    ensures Index(r, c) / 3 == r && Index(r, c) % 3 == c
  {
  }

  /** A move that completes no line and is not the ninth: the turn passes
      and the game goes on from `h`. */
  lemma ContinueStep(g: Game, r: int, c: int, h: Game)
    requires 0 <= r < 3 && 0 <= c < 3
    requires Valid(g) && !Ended(g) && g.board[Index(r, c)] == Empty
    requires g.moves + 1 < MaxMoves
    requires h == Placed(g, Index(r, c)) && !AnyCheck(h.board, r, c)
    ensures Move(g, Index(r, c)) == Step(h, Accepted(Continue))
    ensures Valid(h) && !Ended(h)
  {
    var pos := Index(r, c);
    IndexSplits(r, c);
    ChecksMatchLines(h.board, r, c);
    GameFacts.MovePreservesValid(g, pos);
    GameFacts.ContinueKeepsGameLive(g, pos);
  }

  /** A move that completes a line through its cell wins and credits the
      mover, whoever it is. */
  lemma WinStep(g: Game, r: int, c: int)
    requires 0 <= r < 3 && 0 <= c < 3
    requires Valid(g) && !Ended(g) && g.board[Index(r, c)] == Empty
    requires AnyCheck(Placed(g, Index(r, c)).board, r, c)
    ensures Move(g, Index(r, c)).reply == Accepted(Win)
    ensures WinsOf(Move(g, Index(r, c)).game, g.cur) == WinsOf(g, g.cur) + 1
    ensures WinsOf(Move(g, Index(r, c)).game, NextMove(g.cur)) == WinsOf(g, NextMove(g.cur))
  {
    IndexSplits(r, c);
    ChecksMatchLines(Placed(g, Index(r, c)).board, r, c);
  }

  /** The ninth move, completing no line, is a draw that changes neither the
      turn nor the scores. */
  lemma DrawingStep(g: Game, r: int, c: int)
    requires 0 <= r < 3 && 0 <= c < 3
    requires Valid(g) && !Ended(g) && g.board[Index(r, c)] == Empty
    requires g.moves + 1 == MaxMoves
    requires !AnyCheck(Placed(g, Index(r, c)).board, r, c)
    ensures Move(g, Index(r, c)).reply == Accepted(Draw)
    ensures Score(Move(g, Index(r, c)).game) == Score(g)
  {
    IndexSplits(r, c);
    ChecksMatchLines(Placed(g, Index(r, c)).board, r, c);
  }

  /** `n` replies that let the game go on. */
  function Continues(n: nat): (rs: seq<Reply>)
    ensures |rs| == n
    ensures forall i :: 0 <= i < n ==> rs[i] == Accepted(Continue)
  {
    if n == 0 then [] else [Accepted(Continue)] + Continues(n - 1)
  }

  /** One more reply that lets the game go on, in front of a run of them. */
  lemma ContinuesCons(n: nat, rs: seq<Reply>)
    ensures [Accepted(Continue)] + (Continues(n) + rs) == Continues(n + 1) + rs
  {
    assert Continues(n + 1) == [Accepted(Continue)] + Continues(n);
  }

  /** A suffix of a sequence is its first element before the rest. */
  lemma SuffixCons(s: seq<int>, k: nat)
    requires k < |s|
    ensures [s[k]] + s[k + 1..] == s[k..]
  {
  }

  /** Playing one move and then the rest. */
  lemma PlayCons(g: Game, p: int, ps: seq<int>, h: Game, r: Reply)
    requires Move(g, p) == Step(h, r)
    ensures Play(g, [p] + ps) == Run(Play(h, ps).game, [r] + Play(h, ps).replies)
  {
    assert ([p] + ps)[0] == p;
    assert ([p] + ps)[1..] == ps;
  }

  /** The moves of the top-row game. */
  const TopOrder: seq<int> := [0, 3, 1, 4, 2]

  /** The top-row game after k moves. */
  function Top(x: char, o: char, k: nat): Game
    requires 1 <= k <= 4
  {
    var X, O, E := Mark(x), Mark(o), Empty;
    if k == 1 then Midgame(x, o, [X, E, E, E, E, E, E, E, E], 1, 1)
    else if k == 2 then Midgame(x, o, [X, E, E, O, E, E, E, E, E], 2, 2)
    else if k == 3 then Midgame(x, o, [X, X, E, O, E, E, E, E, E], 3, 1)
    else Midgame(x, o, [X, X, E, O, O, E, E, E, E], 4, 2)
  }

  /** Each of the first 4 moves of the top-row game lets it go on. */
  lemma TopMove1(x: char, o: char)
    ensures Move(Opening(x, o), TopOrder[0]) == Step(Top(x, o, 1), Accepted(Continue))
    ensures Valid(Top(x, o, 1)) && !Ended(Top(x, o, 1))
  {
    FilledBound(Opening(x, o).board);
    ContinueStep(Opening(x, o), 0, 0, Top(x, o, 1));
  }

  lemma TopMove2(x: char, o: char)
    ensures Move(Top(x, o, 1), TopOrder[1]) == Step(Top(x, o, 2), Accepted(Continue))
    ensures Valid(Top(x, o, 2)) && !Ended(Top(x, o, 2))
  {
    TopMove1(x, o);
    ContinueStep(Top(x, o, 1), 1, 0, Top(x, o, 2));
  }

  lemma TopMove3(x: char, o: char)
    ensures Move(Top(x, o, 2), TopOrder[2]) == Step(Top(x, o, 3), Accepted(Continue))
    ensures Valid(Top(x, o, 3)) && !Ended(Top(x, o, 3))
  {
    TopMove2(x, o);
    ContinueStep(Top(x, o, 2), 0, 1, Top(x, o, 3));
  }

  lemma TopMove4(x: char, o: char)
    ensures Move(Top(x, o, 3), TopOrder[3]) == Step(Top(x, o, 4), Accepted(Continue))
    ensures Valid(Top(x, o, 4)) && !Ended(Top(x, o, 4))
  {
    TopMove3(x, o);
    ContinueStep(Top(x, o, 3), 1, 1, Top(x, o, 4));
  }

  /** X completes the top row on (0,2) and is credited with the win. */
  lemma TopMove5(x: char, o: char)
    ensures Move(Top(x, o, 4), TopOrder[4]).reply == Accepted(Win)
    ensures Move(Top(x, o, 4), TopOrder[4]).game.p2.wins == 1
    ensures Move(Top(x, o, 4), TopOrder[4]).game.p1.wins == 0
  {
    TopMove4(x, o);
    assert AssertRow(Placed(Top(x, o, 4), 2).board, 0);
    WinStep(Top(x, o, 4), 0, 2);
  }

  lemma TopFrom4(x: char, o: char)
    ensures Play(Top(x, o, 4), TopOrder[4..]) ==
      Run(Move(Top(x, o, 4), TopOrder[4]).game, Continues(0) + [Accepted(Win)])
  {
    TopMove5(x, o);
    PlayCons(Top(x, o, 4), TopOrder[4], [], Move(Top(x, o, 4), TopOrder[4]).game, Accepted(Win));
    assert TopOrder[4..] == [TopOrder[4]] + [];
  }

  /** The replies from each earlier state of the top-row game to its end. */
  lemma TopFrom3(x: char, o: char)
    ensures Play(Top(x, o, 3), TopOrder[3..]) ==
      Run(Move(Top(x, o, 4), TopOrder[4]).game, Continues(1) + [Accepted(Win)])
  {
    TopMove4(x, o);
    TopFrom4(x, o);
    PlayCons(Top(x, o, 3), TopOrder[3], TopOrder[4..], Top(x, o, 4), Accepted(Continue));
    SuffixCons(TopOrder, 3);
    ContinuesCons(0, [Accepted(Win)]);
  }

  lemma TopFrom2(x: char, o: char)
    ensures Play(Top(x, o, 2), TopOrder[2..]) ==
      Run(Move(Top(x, o, 4), TopOrder[4]).game, Continues(2) + [Accepted(Win)])
  {
    TopMove3(x, o);
    TopFrom3(x, o);
    PlayCons(Top(x, o, 2), TopOrder[2], TopOrder[3..], Top(x, o, 3), Accepted(Continue));
    SuffixCons(TopOrder, 2);
    ContinuesCons(1, [Accepted(Win)]);
  }

  lemma TopFrom1(x: char, o: char)
    ensures Play(Top(x, o, 1), TopOrder[1..]) ==
      Run(Move(Top(x, o, 4), TopOrder[4]).game, Continues(3) + [Accepted(Win)])
  {
    TopMove2(x, o);
    TopFrom2(x, o);
    PlayCons(Top(x, o, 1), TopOrder[1], TopOrder[2..], Top(x, o, 2), Accepted(Continue));
    SuffixCons(TopOrder, 1);
    ContinuesCons(2, [Accepted(Win)]);
  }

  lemma TopFrom0(x: char, o: char)
    ensures Play(Opening(x, o), TopOrder[0..]) ==
      Run(Move(Top(x, o, 4), TopOrder[4]).game, Continues(4) + [Accepted(Win)])
  {
    TopMove1(x, o);
    TopFrom1(x, o);
    PlayCons(Opening(x, o), TopOrder[0], TopOrder[1..], Top(x, o, 1), Accepted(Continue));
    SuffixCons(TopOrder, 0);
    ContinuesCons(3, [Accepted(Win)]);
  }

  /** The moves of the drawn game. */
  const DrawnOrder: seq<int> := [0, 1, 2, 4, 3, 5, 7, 6, 8]

  /** The drawn game after k moves. */
  function Drawn(x: char, o: char, k: nat): Game
    requires 1 <= k <= 8
  {
    var X, O, E := Mark(x), Mark(o), Empty;
    if k == 1 then Midgame(x, o, [X, E, E, E, E, E, E, E, E], 1, 1)
    else if k == 2 then Midgame(x, o, [X, O, E, E, E, E, E, E, E], 2, 2)
    else if k == 3 then Midgame(x, o, [X, O, X, E, E, E, E, E, E], 3, 1)
    else if k == 4 then Midgame(x, o, [X, O, X, E, O, E, E, E, E], 4, 2)
    else if k == 5 then Midgame(x, o, [X, O, X, X, O, E, E, E, E], 5, 1)
    else if k == 6 then Midgame(x, o, [X, O, X, X, O, O, E, E, E], 6, 2)
    else if k == 7 then Midgame(x, o, [X, O, X, X, O, O, E, X, E], 7, 1)
    else Midgame(x, o, [X, O, X, X, O, O, O, X, E], 8, 2)
  }

  /** Each of the first 8 moves of the drawn game lets it go on. */
  lemma DrawnMove1(x: char, o: char)
    requires x != o
    ensures Move(Opening(x, o), DrawnOrder[0]) == Step(Drawn(x, o, 1), Accepted(Continue))
    ensures Valid(Drawn(x, o, 1)) && !Ended(Drawn(x, o, 1))
  {
    FilledBound(Opening(x, o).board);
    ContinueStep(Opening(x, o), 0, 0, Drawn(x, o, 1));
  }

  lemma DrawnMove2(x: char, o: char)
    requires x != o
    ensures Move(Drawn(x, o, 1), DrawnOrder[1]) == Step(Drawn(x, o, 2), Accepted(Continue))
    ensures Valid(Drawn(x, o, 2)) && !Ended(Drawn(x, o, 2))
  {
    DrawnMove1(x, o);
    ContinueStep(Drawn(x, o, 1), 0, 1, Drawn(x, o, 2));
  }

  lemma DrawnMove3(x: char, o: char)
    requires x != o
    ensures Move(Drawn(x, o, 2), DrawnOrder[2]) == Step(Drawn(x, o, 3), Accepted(Continue))
    ensures Valid(Drawn(x, o, 3)) && !Ended(Drawn(x, o, 3))
  {
    DrawnMove2(x, o);
    ContinueStep(Drawn(x, o, 2), 0, 2, Drawn(x, o, 3));
  }

  lemma DrawnMove4(x: char, o: char)
    requires x != o
    ensures Move(Drawn(x, o, 3), DrawnOrder[3]) == Step(Drawn(x, o, 4), Accepted(Continue))
    ensures Valid(Drawn(x, o, 4)) && !Ended(Drawn(x, o, 4))
  {
    DrawnMove3(x, o);
    ContinueStep(Drawn(x, o, 3), 1, 1, Drawn(x, o, 4));
  }

  lemma DrawnMove5(x: char, o: char)
    requires x != o
    ensures Move(Drawn(x, o, 4), DrawnOrder[4]) == Step(Drawn(x, o, 5), Accepted(Continue))
    ensures Valid(Drawn(x, o, 5)) && !Ended(Drawn(x, o, 5))
  {
    DrawnMove4(x, o);
    ContinueStep(Drawn(x, o, 4), 1, 0, Drawn(x, o, 5));
  }

  lemma DrawnMove6(x: char, o: char)
    requires x != o
    ensures Move(Drawn(x, o, 5), DrawnOrder[5]) == Step(Drawn(x, o, 6), Accepted(Continue))
    ensures Valid(Drawn(x, o, 6)) && !Ended(Drawn(x, o, 6))
  {
    DrawnMove5(x, o);
    ContinueStep(Drawn(x, o, 5), 1, 2, Drawn(x, o, 6));
  }

  lemma DrawnMove7(x: char, o: char)
    requires x != o
    ensures Move(Drawn(x, o, 6), DrawnOrder[6]) == Step(Drawn(x, o, 7), Accepted(Continue))
    ensures Valid(Drawn(x, o, 7)) && !Ended(Drawn(x, o, 7))
  {
    DrawnMove6(x, o);
    ContinueStep(Drawn(x, o, 6), 2, 1, Drawn(x, o, 7));
  }

  lemma DrawnMove8(x: char, o: char)
    requires x != o
    ensures Move(Drawn(x, o, 7), DrawnOrder[7]) == Step(Drawn(x, o, 8), Accepted(Continue))
    ensures Valid(Drawn(x, o, 8)) && !Ended(Drawn(x, o, 8))
  {
    DrawnMove7(x, o);
    ContinueStep(Drawn(x, o, 7), 2, 0, Drawn(x, o, 8));
  }

  /** X on 8 fills the board without completing a line. */
  lemma DrawnMove9(x: char, o: char)
    requires x != o
    ensures Move(Drawn(x, o, 8), DrawnOrder[8]).reply == Accepted(Draw)
    ensures Score(Move(Drawn(x, o, 8), DrawnOrder[8]).game) == 0
  {
    DrawnMove8(x, o);
    assert !AnyCheck(Placed(Drawn(x, o, 8), 8).board, 2, 2);
    DrawingStep(Drawn(x, o, 8), 2, 2);
  }

  lemma DrawnFrom8(x: char, o: char)
    requires x != o
    ensures Play(Drawn(x, o, 8), DrawnOrder[8..]) ==
      Run(Move(Drawn(x, o, 8), DrawnOrder[8]).game, Continues(0) + [Accepted(Draw)])
  {
    DrawnMove9(x, o);
    PlayCons(Drawn(x, o, 8), DrawnOrder[8], [], Move(Drawn(x, o, 8), DrawnOrder[8]).game, Accepted(Draw));
    assert DrawnOrder[8..] == [DrawnOrder[8]] + [];
  }

  /** The replies from each earlier state of the drawn game to its end. */
  lemma DrawnFrom7(x: char, o: char)
    requires x != o
    ensures Play(Drawn(x, o, 7), DrawnOrder[7..]) ==
      Run(Move(Drawn(x, o, 8), DrawnOrder[8]).game, Continues(1) + [Accepted(Draw)])
  {
    DrawnMove8(x, o);
    DrawnFrom8(x, o);
    PlayCons(Drawn(x, o, 7), DrawnOrder[7], DrawnOrder[8..], Drawn(x, o, 8), Accepted(Continue));
    SuffixCons(DrawnOrder, 7);
    ContinuesCons(0, [Accepted(Draw)]);
  }

  lemma DrawnFrom6(x: char, o: char)
    requires x != o
    ensures Play(Drawn(x, o, 6), DrawnOrder[6..]) ==
      Run(Move(Drawn(x, o, 8), DrawnOrder[8]).game, Continues(2) + [Accepted(Draw)])
  {
    DrawnMove7(x, o);
    DrawnFrom7(x, o);
    PlayCons(Drawn(x, o, 6), DrawnOrder[6], DrawnOrder[7..], Drawn(x, o, 7), Accepted(Continue));
    SuffixCons(DrawnOrder, 6);
    ContinuesCons(1, [Accepted(Draw)]);
  }

  lemma DrawnFrom5(x: char, o: char)
    requires x != o
    ensures Play(Drawn(x, o, 5), DrawnOrder[5..]) ==
      Run(Move(Drawn(x, o, 8), DrawnOrder[8]).game, Continues(3) + [Accepted(Draw)])
  {
    DrawnMove6(x, o);
    DrawnFrom6(x, o);
    PlayCons(Drawn(x, o, 5), DrawnOrder[5], DrawnOrder[6..], Drawn(x, o, 6), Accepted(Continue));
    SuffixCons(DrawnOrder, 5);
    ContinuesCons(2, [Accepted(Draw)]);
  }

  lemma DrawnFrom4(x: char, o: char)
    requires x != o
    ensures Play(Drawn(x, o, 4), DrawnOrder[4..]) ==
      Run(Move(Drawn(x, o, 8), DrawnOrder[8]).game, Continues(4) + [Accepted(Draw)])
  {
    DrawnMove5(x, o);
    DrawnFrom5(x, o);
    PlayCons(Drawn(x, o, 4), DrawnOrder[4], DrawnOrder[5..], Drawn(x, o, 5), Accepted(Continue));
    SuffixCons(DrawnOrder, 4);
    ContinuesCons(3, [Accepted(Draw)]);
  }

  lemma DrawnFrom3(x: char, o: char)
    requires x != o
    ensures Play(Drawn(x, o, 3), DrawnOrder[3..]) ==
      Run(Move(Drawn(x, o, 8), DrawnOrder[8]).game, Continues(5) + [Accepted(Draw)])
  {
    DrawnMove4(x, o);
    DrawnFrom4(x, o);
    PlayCons(Drawn(x, o, 3), DrawnOrder[3], DrawnOrder[4..], Drawn(x, o, 4), Accepted(Continue));
    SuffixCons(DrawnOrder, 3);
    ContinuesCons(4, [Accepted(Draw)]);
  }

  lemma DrawnFrom2(x: char, o: char)
    requires x != o
    ensures Play(Drawn(x, o, 2), DrawnOrder[2..]) ==
      Run(Move(Drawn(x, o, 8), DrawnOrder[8]).game, Continues(6) + [Accepted(Draw)])
  {
    DrawnMove3(x, o);
    DrawnFrom3(x, o);
    PlayCons(Drawn(x, o, 2), DrawnOrder[2], DrawnOrder[3..], Drawn(x, o, 3), Accepted(Continue));
    SuffixCons(DrawnOrder, 2);
    ContinuesCons(5, [Accepted(Draw)]);
  }

  lemma DrawnFrom1(x: char, o: char)
    requires x != o
    ensures Play(Drawn(x, o, 1), DrawnOrder[1..]) ==
      Run(Move(Drawn(x, o, 8), DrawnOrder[8]).game, Continues(7) + [Accepted(Draw)])
  {
    DrawnMove2(x, o);
    DrawnFrom2(x, o);
    PlayCons(Drawn(x, o, 1), DrawnOrder[1], DrawnOrder[2..], Drawn(x, o, 2), Accepted(Continue));
    SuffixCons(DrawnOrder, 1);
    ContinuesCons(6, [Accepted(Draw)]);
  }

  lemma DrawnFrom0(x: char, o: char)
    requires x != o
    ensures Play(Opening(x, o), DrawnOrder[0..]) ==
      Run(Move(Drawn(x, o, 8), DrawnOrder[8]).game, Continues(8) + [Accepted(Draw)])
  {
    DrawnMove1(x, o);
    DrawnFrom1(x, o);
    PlayCons(Opening(x, o), DrawnOrder[0], DrawnOrder[1..], Drawn(x, o, 1), Accepted(Continue));
    SuffixCons(DrawnOrder, 0);
    ContinuesCons(7, [Accepted(Draw)]);
  }

  /** The moves of the in-order game: 0 to 8, the players alternating. */
  const InOrderMoves: seq<int> := [0, 1, 2, 3, 4, 5, 6, 7, 8]

  /** The in-order game after k moves. */
  function InOrder(x: char, o: char, k: nat): Game
    requires 1 <= k <= 6
  {
    var X, O, E := Mark(x), Mark(o), Empty;
    if k == 1 then Midgame(x, o, [X, E, E, E, E, E, E, E, E], 1, 1)
    else if k == 2 then Midgame(x, o, [X, O, E, E, E, E, E, E, E], 2, 2)
    else if k == 3 then Midgame(x, o, [X, O, X, E, E, E, E, E, E], 3, 1)
    else if k == 4 then Midgame(x, o, [X, O, X, O, E, E, E, E, E], 4, 2)
    else if k == 5 then Midgame(x, o, [X, O, X, O, X, E, E, E, E], 5, 1)
    else Midgame(x, o, [X, O, X, O, X, O, E, E, E], 6, 2)
  }

  /** Each of the first 6 moves of the in-order game lets it go on. */
  lemma InOrderMove1(x: char, o: char)
    requires x != o
    ensures Move(Opening(x, o), InOrderMoves[0]) == Step(InOrder(x, o, 1), Accepted(Continue))
    ensures Valid(InOrder(x, o, 1)) && !Ended(InOrder(x, o, 1))
  {
    FilledBound(Opening(x, o).board);
    ContinueStep(Opening(x, o), 0, 0, InOrder(x, o, 1));
  }

  lemma InOrderMove2(x: char, o: char)
    requires x != o
    ensures Move(InOrder(x, o, 1), InOrderMoves[1]) == Step(InOrder(x, o, 2), Accepted(Continue))
    ensures Valid(InOrder(x, o, 2)) && !Ended(InOrder(x, o, 2))
  {
    InOrderMove1(x, o);
    ContinueStep(InOrder(x, o, 1), 0, 1, InOrder(x, o, 2));
  }

  lemma InOrderMove3(x: char, o: char)
    requires x != o
    ensures Move(InOrder(x, o, 2), InOrderMoves[2]) == Step(InOrder(x, o, 3), Accepted(Continue))
    ensures Valid(InOrder(x, o, 3)) && !Ended(InOrder(x, o, 3))
  {
    InOrderMove2(x, o);
    ContinueStep(InOrder(x, o, 2), 0, 2, InOrder(x, o, 3));
  }

  lemma InOrderMove4(x: char, o: char)
    requires x != o
    ensures Move(InOrder(x, o, 3), InOrderMoves[3]) == Step(InOrder(x, o, 4), Accepted(Continue))
    ensures Valid(InOrder(x, o, 4)) && !Ended(InOrder(x, o, 4))
  {
    InOrderMove3(x, o);
    ContinueStep(InOrder(x, o, 3), 1, 0, InOrder(x, o, 4));
  }

  lemma InOrderMove5(x: char, o: char)
    requires x != o
    ensures Move(InOrder(x, o, 4), InOrderMoves[4]) == Step(InOrder(x, o, 5), Accepted(Continue))
    ensures Valid(InOrder(x, o, 5)) && !Ended(InOrder(x, o, 5))
  {
    InOrderMove4(x, o);
    ContinueStep(InOrder(x, o, 4), 1, 1, InOrder(x, o, 5));
  }

  lemma InOrderMove6(x: char, o: char)
    requires x != o
    ensures Move(InOrder(x, o, 5), InOrderMoves[5]) == Step(InOrder(x, o, 6), Accepted(Continue))
    ensures Valid(InOrder(x, o, 6)) && !Ended(InOrder(x, o, 6))
  {
    InOrderMove5(x, o);
    ContinueStep(InOrder(x, o, 5), 1, 2, InOrder(x, o, 6));
  }

  /** X on 6 completes the anti-diagonal 2, 4, 6. */
  lemma InOrderMove7(x: char, o: char)
    requires x != o
    ensures Move(InOrder(x, o, 6), InOrderMoves[6]).reply == Accepted(Win)
    ensures Move(InOrder(x, o, 6), InOrderMoves[6]).game.p2.wins == 1
    ensures Valid(Move(InOrder(x, o, 6), InOrderMoves[6]).game) && Ended(Move(InOrder(x, o, 6), InOrderMoves[6]).game)
  {
    InOrderMove6(x, o);
    assert AssertRightDiag(Placed(InOrder(x, o, 6), 6).board);
    WinStep(InOrder(x, o, 6), 2, 0);
    GameFacts.MovePreservesValid(InOrder(x, o, 6), 6);
    GameFacts.TerminalEndsGame(InOrder(x, o, 6), 6, 7);
  }

  /** Once the game is won, the moves to 7 and 8 are rejected and change
      nothing. */
  lemma InOrderAfterWin(x: char, o: char)
    requires x != o
    ensures Play(Move(InOrder(x, o, 6), InOrderMoves[6]).game, InOrderMoves[7..]) == Run(Move(InOrder(x, o, 6), InOrderMoves[6]).game, [Invalid, Invalid])
  {
    InOrderMove7(x, o);
    var h := Move(InOrder(x, o, 6), InOrderMoves[6]).game;
    PlayCons(h, 8, [], h, Invalid);
    PlayCons(h, 7, [8], h, Invalid);
    assert InOrderMoves[7..] == [7] + ([8] + []);
  }

  lemma InOrderFrom6(x: char, o: char)
    requires x != o
    ensures Play(InOrder(x, o, 6), InOrderMoves[6..]) ==
      Run(Move(InOrder(x, o, 6), InOrderMoves[6]).game, Continues(0) + [Accepted(Win), Invalid, Invalid])
  {
    InOrderMove7(x, o);
    InOrderAfterWin(x, o);
    PlayCons(InOrder(x, o, 6), InOrderMoves[6], InOrderMoves[7..], Move(InOrder(x, o, 6), InOrderMoves[6]).game, Accepted(Win));
    SuffixCons(InOrderMoves, 6);
  }

  /** The replies from each earlier state of the in-order game to its end. */
  lemma InOrderFrom5(x: char, o: char)
    requires x != o
    ensures Play(InOrder(x, o, 5), InOrderMoves[5..]) ==
      Run(Move(InOrder(x, o, 6), InOrderMoves[6]).game, Continues(1) + [Accepted(Win), Invalid, Invalid])
  {
    InOrderMove6(x, o);
    InOrderFrom6(x, o);
    PlayCons(InOrder(x, o, 5), InOrderMoves[5], InOrderMoves[6..], InOrder(x, o, 6), Accepted(Continue));
    SuffixCons(InOrderMoves, 5);
    ContinuesCons(0, [Accepted(Win), Invalid, Invalid]);
  }

  lemma InOrderFrom4(x: char, o: char)
    requires x != o
    ensures Play(InOrder(x, o, 4), InOrderMoves[4..]) ==
      Run(Move(InOrder(x, o, 6), InOrderMoves[6]).game, Continues(2) + [Accepted(Win), Invalid, Invalid])
  {
    InOrderMove5(x, o);
    InOrderFrom5(x, o);
    PlayCons(InOrder(x, o, 4), InOrderMoves[4], InOrderMoves[5..], InOrder(x, o, 5), Accepted(Continue));
    SuffixCons(InOrderMoves, 4);
    ContinuesCons(1, [Accepted(Win), Invalid, Invalid]);
  }

  lemma InOrderFrom3(x: char, o: char)
    requires x != o
    ensures Play(InOrder(x, o, 3), InOrderMoves[3..]) ==
      Run(Move(InOrder(x, o, 6), InOrderMoves[6]).game, Continues(3) + [Accepted(Win), Invalid, Invalid])
  {
    InOrderMove4(x, o);
    InOrderFrom4(x, o);
    PlayCons(InOrder(x, o, 3), InOrderMoves[3], InOrderMoves[4..], InOrder(x, o, 4), Accepted(Continue));
    SuffixCons(InOrderMoves, 3);
    ContinuesCons(2, [Accepted(Win), Invalid, Invalid]);
  }

  lemma InOrderFrom2(x: char, o: char)
    requires x != o
    ensures Play(InOrder(x, o, 2), InOrderMoves[2..]) ==
      Run(Move(InOrder(x, o, 6), InOrderMoves[6]).game, Continues(4) + [Accepted(Win), Invalid, Invalid])
  {
    InOrderMove3(x, o);
    InOrderFrom3(x, o);
    PlayCons(InOrder(x, o, 2), InOrderMoves[2], InOrderMoves[3..], InOrder(x, o, 3), Accepted(Continue));
    SuffixCons(InOrderMoves, 2);
    ContinuesCons(3, [Accepted(Win), Invalid, Invalid]);
  }

  lemma InOrderFrom1(x: char, o: char)
    requires x != o
    ensures Play(InOrder(x, o, 1), InOrderMoves[1..]) ==
      Run(Move(InOrder(x, o, 6), InOrderMoves[6]).game, Continues(5) + [Accepted(Win), Invalid, Invalid])
  {
    InOrderMove2(x, o);
    InOrderFrom2(x, o);
    PlayCons(InOrder(x, o, 1), InOrderMoves[1], InOrderMoves[2..], InOrder(x, o, 2), Accepted(Continue));
    SuffixCons(InOrderMoves, 1);
    ContinuesCons(4, [Accepted(Win), Invalid, Invalid]);
  }

  lemma InOrderFrom0(x: char, o: char)
    requires x != o
    ensures Play(Opening(x, o), InOrderMoves[0..]) ==
      Run(Move(InOrder(x, o, 6), InOrderMoves[6]).game, Continues(6) + [Accepted(Win), Invalid, Invalid])
  {
    InOrderMove1(x, o);
    InOrderFrom1(x, o);
    PlayCons(Opening(x, o), InOrderMoves[0], InOrderMoves[1..], InOrder(x, o, 1), Accepted(Continue));
    SuffixCons(InOrderMoves, 0);
    ContinuesCons(5, [Accepted(Win), Invalid, Invalid]);
  }

  /** X takes 0, 1 and 2 while O takes 3 and 4: X completes the top row on
      its third move and is credited with the win. */
  lemma TopRowWins(x: char, o: char)
    ensures Play(Opening(x, o), TopOrder).replies == Continues(4) + [Accepted(Win)]
    ensures Play(Opening(x, o), TopOrder).game.p2.wins == 1
    ensures Play(Opening(x, o), TopOrder).game.p1.wins == 0
  {
    TopFrom0(x, o);
    TopMove5(x, o);
  }

  /** X: 0, 2, 3, 7, 8 and O: 1, 4, 5, 6 complete no line, so the ninth
      accepted move is a draw and nobody scores. */
  lemma NinthMoveDraws(x: char, o: char)
    requires x != o
    ensures Play(Opening(x, o), DrawnOrder).replies == Continues(8) + [Accepted(Draw)]
    ensures Score(Play(Opening(x, o), DrawnOrder).game) == 0
  {
    DrawnFrom0(x, o);
    DrawnMove9(x, o);
  }

  /** Playing 0, 1, ..., 8 in order does not reach a draw: X's fourth piece,
      on 6, completes the anti-diagonal, and the two moves after it are
      rejected. */
  lemma InOrderWinsAtSix(x: char, o: char)
    requires x != o
    ensures Play(Opening(x, o), InOrderMoves).replies ==
      Continues(6) + [Accepted(Win), Invalid, Invalid]
    ensures Play(Opening(x, o), InOrderMoves).game.p2.wins == 1
  {
    InOrderFrom0(x, o);
    InOrderMove7(x, o);
  }
}

=== FILE: session.dfy ===
/** Sequences of moves and of games, as the page drives the gameBoard module:
    moves are made one at a time until the game ends, and `resetGame` starts
    the next game with the same players. */
module Session {
  import opened Board
  import opened GameBoard
  import opened GameFacts

  /** The final state and the replies of a sequence of `move` calls. */
  datatype Run = Run(game: Game, replies: seq<Reply>)

  function Play(g: Game, ps: seq<int>): (run: Run)
    ensures |run.replies| == |ps|
    decreases |ps|
  {
    if ps == [] then Run(g, [])
    else
      var st := Move(g, ps[0]);
      var rest := Play(st.game, ps[1..]);
      Run(rest.game, [st.reply] + rest.replies)
  }

  /** Playing two sequences of moves one after the other is playing their
      concatenation. */
  lemma {:induction false} PlayConcat(g: Game, a: seq<int>, b: seq<int>)
    ensures Play(g, a + b).game == Play(Play(g, a).game, b).game
    ensures Play(g, a + b).replies == Play(g, a).replies + Play(Play(g, a).game, b).replies
    decreases |a|
  {
    if a != [] {
      assert (a + b)[0] == a[0];
      assert (a + b)[1..] == a[1..] + b;
      PlayConcat(Move(g, a[0]).game, a[1..], b);
    } else {
      assert a + b == b;
    }
  }

  /** How many of the replies accepted a move. */
  function CountAccepted(rs: seq<Reply>): nat
  {
    if rs == [] then 0
    else (if rs[0].Accepted? then 1 else 0) + CountAccepted(rs[1..])
  }

  /** How many of the replies report a win. */
  function CountWins(rs: seq<Reply>): nat
  {
    if rs == [] then 0
    else (if rs[0] == Accepted(Win) then 1 else 0) + CountWins(rs[1..])
  }

  /** Total games won by the two players. */
  function Score(g: Game): nat
  {
    g.p1.wins + g.p2.wins
  }

  /** Over any sequence of moves the counter grows by the number of accepted
      moves, the scores by the number of wins, and the starter, the pieces and
      the well-formedness of the state are kept. */
  lemma {:induction false} PlayCounts(g: Game, ps: seq<int>)
    requires Valid(g)
    ensures var run := Play(g, ps);
      && run.game.moves == g.moves + CountAccepted(run.replies)
      && Score(run.game) == Score(g) + CountWins(run.replies)
      && run.game.first == g.first
      && run.game.p1.piece == g.p1.piece && run.game.p2.piece == g.p2.piece
      && Valid(run.game)
    decreases |ps|
  {
    if ps != [] {
      var st := Move(g, ps[0]);
      MovePreservesValid(g, ps[0]);
      PlayCounts(st.game, ps[1..]);
      var run := Play(g, ps);
      assert run.replies[1..] == Play(st.game, ps[1..]).replies;
    }
  }

  /** A whole session: each game's moves are played, then `resetGame` starts
      the next one. */
  function Games(g: Game, games: seq<seq<int>>): (h: Game)
    decreases |games|
  {
    if games == [] then g
    else Games(ResetGame(Play(g, games[0]).game), games[1..])
  }

  /** Starters alternate whatever happens in the games: after n games the
      starter has flipped n times, and each new game opens with its starter
      to move. */
  lemma {:induction false} StartersAlternate(g: Game, games: seq<seq<int>>)
    requires Valid(g)
    ensures var h := Games(g, games);
      && Valid(h)
      && h.first == (if |games| % 2 == 0 then g.first else NextMove(g.first))
      && (games != [] ==> h.cur == h.first && h.moves == 0)
    decreases |games|
  {
    if games != [] {
      var played := Play(g, games[0]).game;
      PlayCounts(g, games[0]);
      var next := ResetGame(played);
      StartersAlternate(next, games[1..]);
      NextMoveInvolution(g.first);
    }
  }

  /** From a freshly loaded module, `initGame` gives the first game to
      player 2, and the games after it alternate: counting the first game as
      game 0, game k is started by player 2 when k is even and by player 1
      when k is odd. */
  lemma StartersFromLoad(p1: Player, p2: Player, games: seq<seq<int>>)
    ensures Games(InitGame(InitialStarter, p1, p2), games).first ==
      (if |games| % 2 == 0 then 2 else 1)
  {
    StartersAlternate(InitGame(InitialStarter, p1, p2), games);
  }
}
